=== FILE: README.md ===
# OSS publisher for Electron Forge — Dafny model

This project models the decision logic of `PublisherOss` (`src/index.ts`). That is the Electron Forge publisher that uploads build artifacts to an Alibaba Cloud OSS bucket and keeps a per-platform `RELEASES.json` manifest for auto-update clients. The model covers five parts, and the Dafny code proves properties of each:

- **Key sanitising** (`KeyNamer`): `filterKeySafe` turns every `@` and `/` of a package name into `_`. The key prefix is the configured `basePath`, or the sanitised package name when `basePath` is missing or empty.
- **Artifact flattening** (`Collector`): the loop at the start of `publish` turns the build results into one flat list of `OssArtifact` records.
- **Upload bookkeeping** (`Uploads`): the concurrent uploads are modelled as the sequence of callback events they deliver: a progress tick, a finished upload or a failed one. Each event is applied in turn to the closure state of `publish`:
  - the `uploaded` counter;
  - the sparse `details` array, where an assignment past the end leaves holes, as it does in JavaScript;
  - the release marker `releaseArtifact`;
  - every status line passed to `setStatusLine`.
- **Manifest reconciliation** (`Manifests`): the manifest path, the fallback to an empty manifest, and the find-or-append upsert of `setRelease`.
- **The whole run** (`Publisher`):
  - a failed upload makes `publish` fail and no manifest is written;
  - a run with no installer artifact writes no manifest;
  - otherwise the upserted manifest is written to `basePath/platform/arch/RELEASES.json`.

The storage client enters only as parameters:
- `fetch: string -> Option<Manifest>` stands for `get` followed by `JSON.parse`, with `None` when either throws.
- `objectUrl: Artifact -> string` stands for `generateObjectUrl(keyForArtifact(artifact))`.
- `pubDate` is the serialised `new Date()`.
- Each file's `basename` and `extname` (from Node's `path` module) are carried as fields of the file, not computed.

Three behaviours of the code are easy to miss:
- An explicit `basePath` is used as the key prefix exactly as configured. If it contains `@` or `/`, those stay in the key, so the prefix is safe only when `basePath` is unset, empty or itself safe. `KeyNamer.KeyPrefix` states exactly this.
- The status line lists the detail slot of every artifact that has reported anything, including finished ones at 100%. It is not limited to the uploads still in flight.
- `basePath` is read two different ways:
  - The key prefix uses `||`, so an empty `basePath` falls through to the sanitised package name.
  - The manifest path replaces only a missing `basePath` with `''`, so an empty one yields a path that starts with `/`.

## Model

| member | source | states |
|---|---|---|
| KeyNamer.FilterKeySafe | src/index.ts:33-35 | The result has no `@` and no `/` and is as long as the input. Every `@` or `/` becomes `_` at the same position, and every other character is unchanged in place. |
| KeyNamer.FilterKeySafeFixesExactlySafeKeys | src/index.ts:33-35 | Sanitising leaves a name unchanged if and only if the name has no `@` or `/`. |
| KeyNamer.FilterKeySafeIdempotent | src/index.ts:33-35 | Sanitising twice gives the same result as sanitising once. |
| KeyNamer.ScopedNameIsSanitised | src/index.ts:34 | The scoped name `@scope/name` becomes `_scope_name` when scope and name contain no `@` or `/`. |
| KeyNamer.KeyPrefix | src/index.ts:46 | A non-empty `basePath` is the prefix. A missing or empty one falls through to the sanitised package name. The prefix is key-safe whenever `basePath` is unset or safe, and it is empty only when the package name is empty. |
| Text.ReplaceChar | src/index.ts:34 | A global single-character `replace` keeps the length and changes exactly the occurrences of the replaced character. |
| Collector.ArtifactsOf | src/index.ts:44-50 | The records built for one build result are one per file, in file order. Each carries that file, the result's platform, arch and version, and the key prefix computed from the configured `basePath` and the result's package name. |
| Collector.Flatten | src/index.ts:42-52 | The flat list has exactly as many artifacts as all build results have files together. |
| Collector.FlattenPlacesEveryFile | src/index.ts:42-52 | File `j` of build result `i` is at position `offset(i) + j`, after the files of earlier results. It takes that result's version, platform and arch and that result's key prefix, so both build-result order and file order are kept. |
| Collector.FlattenOrigin | src/index.ts:42-52 | Every flat artifact is the record of one file of one build result. No artifact is invented. |
| Collector.FlattenAppend | src/index.ts:42-43 | Flattening distributes over concatenation of build-result lists, because each result's artifacts are pushed after all earlier ones. |
| Uploads.SetSlot | src/index.ts:67 | JavaScript array assignment `details[i] = text`. Slot `i` holds the text and every other slot is unchanged. An index past the end grows the array to `i + 1` and fills the gap with holes. |
| Uploads.StatusLine | src/index.ts:57 | Every status line begins with `Uploading Artifacts ` and has more after it. `Uploads.StatusLineShowsCounter` states that the counter reads back off the line. |
| Uploads.Initial | src/index.ts:54-59 | Before any callback, nothing is uploaded, the details array is empty, there is no marker, and exactly one status line has been emitted. |
| Uploads.InitialLineShowsZero | src/index.ts:54-59 | The status line emitted before any upload reports reads `0/total`. |
| Uploads.StatusLineShowsCounter | src/index.ts:57 | Every status line reads back as `Uploading Artifacts uploaded/total`, whatever the details hold. |
| Uploads.Step | src/index.ts:66-76 | A progress tick changes neither the counter nor the marker and sets its own slot to `<basename>: <percent>%`. A finished upload raises the counter by one, sets its own slot to `<basename>: 100%`, and becomes the marker exactly when its extension is `.dmg` or `.exe`. Each event writes only its own slot: every other slot keeps its value and the array never shrinks. Progress and completion each append one status line and keep every earlier line. The new line renders the counter and details as they stand after the event. A failure runs none of the code after the `await`. |
| Uploads.Replay | src/index.ts:54-77 | After any sequence of events the counter equals the number of finished uploads, at least one status line has been emitted, and the details array never outgrows the artifact list. |
| Uploads.LastStatusLineIsCurrent | src/index.ts:57-73 | After any sequence of events, the last status line emitted renders the current counter and details, because `updateStatusLine` runs after every change. |
| Uploads.CompletedArtifactsAreDistinct | src/index.ts:71 | In a valid run no artifact finishes twice, so the list of finished artifacts is as long as the set of finished indices. |
| Uploads.CounterCountsDistinctArtifacts | src/index.ts:71 | In a valid run, where nothing arrives for an upload after it finishes, the counter equals the number of distinct artifacts that finished. |
| Uploads.UploadedNeverExceedsTotal | src/index.ts:71 | In a valid run the counter never exceeds `artifacts.length`. |
| Uploads.UploadedReachesTotal | src/index.ts:60-77 | Once every upload has finished, the counter equals `artifacts.length`. |
| Uploads.MarkerIsLastInstaller | src/index.ts:74-76 | The marker is the last finished artifact, in completion order, whose extension is `.dmg` or `.exe`. It is absent exactly when no finished artifact has such an extension. |
| Uploads.ExeAfterDmgWins | src/index.ts:74-76 | With `.zip`, `.dmg`, `.exe`, `.zip` finishing in that order, the `.exe` artifact is the marker. |
| Uploads.FinishedSlotsRead100 | src/index.ts:72 | In a valid run, the detail slot of every finished artifact reads `<basename>: 100%` from then on. |
| Uploads.AllSlotsRead100 | src/index.ts:56-73 | When every upload has finished, the details array has one `<basename>: 100%` entry per artifact, in artifact order. |
| Uploads.FinishedRunReportsAll | src/index.ts:57-73 | When every upload has finished, the last status line reads `n/n` for `n` artifacts. |
| Manifests.ManifestPath | src/index.ts:86-88 | The manifest path starts with the base path, with a missing one read as empty, and ends with `/RELEASES.json`. |
| Manifests.ManifestPathSeparatesTargets | src/index.ts:88 | Take one base path and platform and arch names without `/`. Two platform/arch pairs get the same manifest path only if they are the same pair. |
| Manifests.UnsetBasePathIsEmpty | src/index.ts:86-88 | A missing `basePath` gives the same manifest path as an empty one, and that path starts with `/`. |
| Manifests.FirstWithVersion | src/index.ts:103 | `find` returns the first entry whose version matches, or none when no entry matches. |
| Manifests.FreshUpdateTo | src/index.ts:105-111 | The new `updateTo` names the version it belongs to as both `version` and `name`. Its notes are `version：` followed by that version, and it carries this publish's date and URL. |
| Manifests.Upsert | src/index.ts:102-124 | `currentRelease` becomes the published version. If some entry has that version, the length is unchanged, only the first such entry changes, and its `updateTo` is replaced with the fresh record. If no entry has it, exactly one fresh entry is appended after the unchanged old ones. |
| Manifests.UpsertKeepsVersions | src/index.ts:102-124 | Every existing entry keeps its version at its position, and afterwards some entry lists the published version. |
| Manifests.UpsertKeepsVersionsDistinct | src/index.ts:103-124 | If the input entries have pairwise distinct versions, so do the output entries. |
| Manifests.UpsertKeepsEntriesConsistent | src/index.ts:105-122 | If every entry's `updateTo.version` and `updateTo.name` equal the entry's version before the upsert, that still holds afterwards. |
| Manifests.UpsertListsVersionOnce | src/index.ts:103-124 | With distinct versions, the published version is listed exactly once. Its `updateTo` has that version as version and name, notes `version：<version>`, the new date and the new URL. |
| Manifests.UpsertListsFresh | src/index.ts:103-124 | Whatever the stored manifest holds, the result lists the published version with the new `updateTo`, carrying this publish's date and URL. A stale URL is overwritten, not kept. |
| Manifests.UpsertTwiceIsLastUpsert | src/index.ts:103-124 | Publishing a version twice gives the same document as publishing it once with the second date and URL. The entry count does not grow. |
| Publisher.SetRelease | src/index.ts:85-124 | The manifest is written to `basePath/platform/arch/RELEASES.json` with `currentRelease` equal to the artifact's version. When the fetch fails, the manifest holds exactly one entry, the new release. In every case, including a republish over a stored manifest, it lists the version with the new `updateTo`, carrying the given date and URL. Every stored entry of another version is written back unchanged at its index. |
| Publisher.SetReleaseKeepsVersionsDistinct | src/index.ts:90-124 | A stored manifest with distinct versions, or none at all, is written back with distinct versions. Every stored entry keeps its version at its position, so no entry is lost. |
| Publisher.FirstFailure | src/index.ts:60-77 | The error `Promise.all` rejects with is the error of the earliest failed upload. It is absent exactly when no upload failed. |
| Publisher.Publish | src/index.ts:37-82 | `publish` fails exactly when `FirstFailure` finds a failed upload, which by its contract means some upload failed. It then carries the first failure's error. Otherwise the marker is the last finished artifact with an installer extension, and no manifest is written exactly when there is none. The written manifest is what `setRelease` produces for that marker with the URL `objectUrl(marker)`. It sits at the marker's platform/arch path and names the marker's version as current. |
| Publisher.ManifestUpdatedIffInstallerPublished | src/index.ts:74-81 | After a run in which every upload finished and none failed, a manifest is written if and only if some artifact has an installer extension. |
| Publisher.PublishedMarkerIsArtifact | src/index.ts:74-80 | The artifact whose manifest is written is always one of the flattened artifacts. |
| Publisher.RepublishKeepsEntryCount | src/index.ts:100-124 | Take a manifest that `setRelease` just wrote and run `setRelease` again for the same artifact. The entry count stays the same, and the result equals a single upsert with the second URL and date. |

## Left out

- The storage client calls `multipartUpload`, `get`, `put` and `generateObjectUrl`, and the inherited `keyForArtifact`. They are network I/O in a foreign library or inherited code that is not part of this model. They appear only as the `fetch` and `objectUrl` parameters. The result of `put` and the `console.log` after it are side effects only.
- `JSON.parse` and `JSON.stringify`. The model works on the manifest datatype directly. A stored document that parses but lacks a `releases` array makes the real `find` throw inside `setRelease`; the model assumes a well-typed document.
- `new Date()` becomes the opaque `pubDate` string.
- `Math.round(p * 100)` is floating-point arithmetic. A progress tick carries its rendered percentage as opaque text, so the monotonicity of per-artifact percentages is a property of the storage client and is not stated.
- Node's `path.basename` and `path.extname` are not re-implemented. Each file carries both as given fields.
- Concurrency is modelled as a single order of callback events. `setRelease` is not awaited at line 80, so its failures never reach `publish`. The model treats the manifest write as the end of the run and does not model that failure path.
- The model does not cover the race between two separate publish runs that update the same manifest, or cancellation and timeouts.
- `Publisher.Publish` does not tell a settled run from one where an upload is still running. It reads its outcome off whatever events it is given. The lemmas about complete runs require the event order to be one the transfers can produce:
  - every index names a real artifact;
  - nothing arrives for an upload after it has finished or failed;
  - every upload finished, for the lemmas about completed runs.
- Callbacks of other uploads that run after the first failure still change the closure state. They also still call `setStatusLine`, so the user sees their status lines. The model does not cover the status lines emitted after the rejection: `Publisher.Publish` reports only the first failure.

=== FILE: collector.dfy ===
/** The loop at the start of `publish`: the build results are flattened into
    one list of artifacts to upload. */
module Collector {
  import opened Wrappers
  import KeyNamer

  /** A produced file. Node's `path.basename` and `path.extname` are not
      re-implemented: both are carried with the path. */
  datatype ArtifactPath = ArtifactPath(path: string, basename: string, extname: string)

  datatype PackageJson = PackageJson(name: string, version: string)

  /** One build result: the files made for one platform and architecture. */
  datatype MakeResult = MakeResult(
    packageJson: PackageJson,
    platform: string,
    arch: string,
    artifacts: seq<ArtifactPath>)

  /** The part of the publisher configuration the core reads; credentials
      and endpoint are passed straight to the storage client. */
  datatype Config = Config(basePath: Option<string>)

  /** `OssArtifact`: one file to upload. */
  datatype Artifact = Artifact(
    path: ArtifactPath,
    platform: string,
    arch: string,
    keyPrefix: string,
    version: string)

  /** The record built for file `file` of build result `mr`. */
  function ArtifactFor(config: Config, mr: MakeResult, file: ArtifactPath): Artifact {
    Artifact(
      file,
      mr.platform,
      mr.arch,
      KeyNamer.KeyPrefix(config.basePath, mr.packageJson.name),
      mr.packageJson.version)
  }

  /** `makeResult.artifacts.map(...)`. */
  function ArtifactsOf(config: Config, mr: MakeResult): (r: seq<Artifact>)
    ensures |r| == |mr.artifacts|
    ensures forall j :: 0 <= j < |r| ==> r[j] == ArtifactFor(config, mr, mr.artifacts[j])
  {
    seq(|mr.artifacts|, j requires 0 <= j < |mr.artifacts| => ArtifactFor(config, mr, mr.artifacts[j]))
  }

  /** Number of files over all build results. */
  function TotalFiles(results: seq<MakeResult>): nat {
    if |results| == 0 then 0
    else TotalFiles(results[..|results| - 1]) + |results[|results| - 1].artifacts|
  }

  /** Where the files of build result `i` start in the flat list. */
  function Offset(results: seq<MakeResult>, i: nat): nat
    requires i <= |results|
  {
    TotalFiles(results[..i])
  }

  /** The `for ... of makeResults` loop: each result's artifacts are pushed
      after those of the results before it. */
  function Flatten(config: Config, results: seq<MakeResult>): (r: seq<Artifact>)
    ensures |r| == TotalFiles(results)
  {
    if |results| == 0 then []
    else Flatten(config, results[..|results| - 1]) + ArtifactsOf(config, results[|results| - 1])
  }

  lemma {:induction false} OffsetBounds(results: seq<MakeResult>, i: nat)
    requires i < |results|
    ensures Offset(results, i) + |results[i].artifacts| <= TotalFiles(results)
    decreases |results|
  {
    var last := |results| - 1;
    assert results[..|results|][..last] == results[..last];
    assert results[..|results|] == results;
    if i < last {
      OffsetBounds(results[..last], i);
      assert results[..last][..i] == results[..i];
    } else {
      assert results[..i] == results[..last];
    }
  }

  /** File `j` of build result `i` sits at position `Offset(results, i) + j`
      of the flat list, with the version, platform and arch of that result and
      that result's key prefix. Together with the length in `Flatten`'s contract
      this says the flat list is exactly the results' files in order. */
  lemma {:induction false} FlattenPlacesEveryFile(config: Config, results: seq<MakeResult>, i: nat, j: nat)
    requires i < |results| && j < |results[i].artifacts|
    ensures Offset(results, i) + j < |Flatten(config, results)|
    ensures Flatten(config, results)[Offset(results, i) + j] == ArtifactFor(config, results[i], results[i].artifacts[j])
    decreases |results|
  {
    var last := |results| - 1;
    OffsetBounds(results, i);
    var prefix := results[..last];
    if i < last {
      FlattenPlacesEveryFile(config, prefix, i, j);
      assert prefix[..i] == results[..i];
      assert prefix[i] == results[i];
    } else {
      assert results[..i] == prefix;
    }
  }

  /** Every flat artifact comes from one file of one build result and carries
      that result's version, platform and arch. */
  lemma {:induction false} FlattenOrigin(config: Config, results: seq<MakeResult>, k: nat)
    requires k < |Flatten(config, results)|
    ensures exists i, j :: 0 <= i < |results| && 0 <= j < |results[i].artifacts|
                           && Flatten(config, results)[k] == ArtifactFor(config, results[i], results[i].artifacts[j])
    decreases |results|
  {
    var last := |results| - 1;
    var prefix := results[..last];
    var front := Flatten(config, prefix);
    if k < |front| {
      FlattenOrigin(config, prefix, k);
      var i, j :| 0 <= i < |prefix| && 0 <= j < |prefix[i].artifacts|
                  && front[k] == ArtifactFor(config, prefix[i], prefix[i].artifacts[j]);
      assert prefix[i] == results[i];
    } else {
      var j := k - |front|;
      assert Flatten(config, results)[k] == ArtifactsOf(config, results[last])[j];
    }
  }

  /** No file is dropped or invented: the flat list is as long as all the
      results' file lists together, and adding a result adds its files. */
  lemma {:induction false} FlattenAppend(config: Config, results: seq<MakeResult>, more: seq<MakeResult>)
    ensures Flatten(config, results + more) == Flatten(config, results) + Flatten(config, more)
    ensures TotalFiles(results + more) == TotalFiles(results) + TotalFiles(more)
    decreases |more|
  {
    if |more| == 0 {
      assert results + more == results;
    } else {
      var last := |more| - 1;
      assert (results + more)[..|results + more| - 1] == results + more[..last];
      FlattenAppend(config, results, more[..last]);
    }
  }
}

=== FILE: key_namer.dfy ===
/** How the publisher turns a package name into a storage key prefix. */
module KeyNamer {
  import opened Wrappers
  import opened Text

  /** Characters with a structural meaning in an object key: `@` opens an npm
      scope and `/` separates path segments. */
  predicate IsForbiddenKeyChar(c: char) {
    c == '@' || c == '/'
  }

  predicate IsKeySafe(s: string) {
    forall i :: 0 <= i < |s| ==> !IsForbiddenKeyChar(s[i])
  }

  /** `filterKeySafe`: first every `@`, then every `/` becomes `_`. */
  function FilterKeySafe(key: string): (r: string)
    ensures IsKeySafe(r)
    ensures |r| == |key|
    ensures forall i :: 0 <= i < |key| && !IsForbiddenKeyChar(key[i]) ==> r[i] == key[i]
    ensures forall i :: 0 <= i < |key| && IsForbiddenKeyChar(key[i]) ==> r[i] == '_'
  {
    ReplaceChar(ReplaceChar(key, '@', '_'), '/', '_')
  }

  /** A name that is already safe is left alone, and only such names are. */
  lemma FilterKeySafeFixesExactlySafeKeys(key: string)
    ensures FilterKeySafe(key) == key <==> IsKeySafe(key)
  {
    if FilterKeySafe(key) == key {
      assert IsKeySafe(FilterKeySafe(key));
    }
  }

  /** Sanitising twice is the same as sanitising once. */
  lemma FilterKeySafeIdempotent(key: string)
    ensures FilterKeySafe(FilterKeySafe(key)) == FilterKeySafe(key)
  {
    FilterKeySafeFixesExactlySafeKeys(FilterKeySafe(key));
  }

  /** A scoped npm package name `@scope/name` becomes `_scope_name`. */
  lemma ScopedNameIsSanitised(scope: string, name: string)
    requires IsKeySafe(scope) && IsKeySafe(name)
    ensures FilterKeySafe("@" + scope + "/" + name) == "_" + scope + "_" + name
  {
    var key := "@" + scope + "/" + name;
    var r := FilterKeySafe(key);
    var want := "_" + scope + "_" + name;
    forall i | 0 <= i < |key|
      ensures r[i] == want[i]
    {
      if i == 0 {
      } else if i < |scope| + 1 {
        assert key[i] == scope[i - 1] && want[i] == scope[i - 1];
      } else if i == |scope| + 1 {
      } else {
        assert key[i] == name[i - |scope| - 2] && want[i] == name[i - |scope| - 2];
      }
    }
  }

  /** `config.basePath || filterKeySafe(packageJSON.name)`: JavaScript's `||`
      skips both a missing and an empty `basePath`. */
  function KeyPrefix(basePath: Option<string>, packageName: string): (r: string)
    ensures basePath.Some? && basePath.value != "" ==> r == basePath.value
    ensures basePath.None? || basePath.value == "" ==> r == FilterKeySafe(packageName)
    ensures (basePath.None? || IsKeySafe(basePath.value)) ==> IsKeySafe(r)
    ensures r == "" ==> packageName == ""
  {
    if basePath.Some? && basePath.value != "" then basePath.value
    else FilterKeySafe(packageName)
  }
}

=== FILE: manifests.dfy ===
/** The in-memory part of `setRelease`: where a platform's `RELEASES.json`
    lives, and how a newly published version is upserted into it. */
module Manifests {
  import opened Wrappers

  /** `updateTo`; `pubDate` is the serialised `new Date()` of the upsert. */
  datatype UpdateTo = UpdateTo(version: string, pubDate: string, notes: string, name: string, url: string)

  /** One entry of `releases`. */
  datatype Release = Release(version: string, updateTo: UpdateTo)

  /** The `ReleaseJSON` document. */
  datatype Manifest = Manifest(currentRelease: string, releases: seq<Release>)

  /** The document started from when the stored one cannot be fetched or
      parsed. */
  const EmptyManifest := Manifest("", [])

  const ManifestFileName := "RELEASES.json"

  /** Release notes are `version` followed by a full-width colon (U+FF1A)
      and the version. */
  const NotesPrefix := "version\U{FF1A}"

  /** `${basePath}/${platform}/${arch}/RELEASES.json`, with an unset
      `basePath` taken as the empty string. */
  function ManifestPath(basePath: Option<string>, platform: string, arch: string): (p: string)
    ensures |p| >= |basePath.GetOr("")| && p[..|basePath.GetOr("")|] == basePath.GetOr("")
    ensures |p| > |ManifestFileName| && p[|p| - |ManifestFileName| - 1..] == "/" + ManifestFileName
  {
    basePath.GetOr("") + "/" + platform + "/" + arch + "/" + ManifestFileName
  }

  predicate HasNoSlash(s: string) {
    forall i :: 0 <= i < |s| ==> s[i] != '/'
  }

  /** Index of the first `/`, or the length when there is none. */
  function FirstSlash(s: string): (i: nat)
    ensures i <= |s|
  {
    if |s| == 0 || s[0] == '/' then 0 else 1 + FirstSlash(s[1..])
  }

  lemma {:induction false} FirstSlashAfter(p: string, t: string)
    requires HasNoSlash(p)
    ensures FirstSlash(p + "/" + t) == |p|
  {
    if |p| > 0 {
      assert (p + "/" + t)[1..] == p[1..] + "/" + t;
      FirstSlashAfter(p[1..], t);
    }
  }

  lemma SlashFreeSplit(p1: string, p2: string, t1: string, t2: string)
    requires HasNoSlash(p1) && HasNoSlash(p2)
    requires p1 + "/" + t1 == p2 + "/" + t2
    ensures p1 == p2 && t1 == t2
  {
    var l := p1 + "/" + t1;
    FirstSlashAfter(p1, t1);
    FirstSlashAfter(p2, t2);
    assert p1 == l[..|p1|] == p2;
    assert t1 == l[|p1| + 1..] == t2;
  }

  lemma ManifestPathShape(basePath: Option<string>, platform: string, arch: string)
    ensures ManifestPath(basePath, platform, arch)
            == (basePath.GetOr("") + "/") + (platform + "/" + (arch + "/" + ManifestFileName))
  {
  }

  /** Under one base path, platforms and arches without a `/` get manifests
      of their own: two (platform, arch) pairs share a path only if they are
      the same pair. */
  lemma ManifestPathSeparatesTargets(basePath: Option<string>, platform1: string, arch1: string, platform2: string, arch2: string)
    requires HasNoSlash(platform1) && HasNoSlash(arch1) && HasNoSlash(platform2) && HasNoSlash(arch2)
    requires ManifestPath(basePath, platform1, arch1) == ManifestPath(basePath, platform2, arch2)
    ensures platform1 == platform2 && arch1 == arch2
  {
    var b := basePath.GetOr("") + "/";
    var tail1 := arch1 + "/" + ManifestFileName;
    var tail2 := arch2 + "/" + ManifestFileName;
    var rest1 := platform1 + "/" + tail1;
    var rest2 := platform2 + "/" + tail2;
    ManifestPathShape(basePath, platform1, arch1);
    ManifestPathShape(basePath, platform2, arch2);
    assert b + rest1 == b + rest2;
    assert rest1 == (b + rest1)[|b|..];
    assert rest2 == (b + rest2)[|b|..];
    SlashFreeSplit(platform1, platform2, tail1, tail2);
    SlashFreeSplit(arch1, arch2, ManifestFileName, ManifestFileName);
  }

  /** An unset base path and an empty one name the same manifest, at the
      root of the bucket. */
  lemma UnsetBasePathIsEmpty(platform: string, arch: string)
    ensures ManifestPath(None, platform, arch) == ManifestPath(Some(""), platform, arch)
    ensures ManifestPath(None, platform, arch)[0] == '/'
  {
  }

  /** `releases.find(val => val.version == version)`: the index of the first
      entry with that version, if any. */
  function FirstWithVersion(releases: seq<Release>, version: string): (r: Option<nat>)
    ensures r.Some? ==> r.value < |releases| && releases[r.value].version == version
    ensures r.Some? ==> forall k :: 0 <= k < r.value ==> releases[k].version != version
    ensures r.None? ==> forall k :: 0 <= k < |releases| ==> releases[k].version != version
  {
    if |releases| == 0 then None
    else if releases[0].version == version then Some(0)
    else
      match FirstWithVersion(releases[1..], version)
      case None => None
      case Some(j) => Some(j + 1)
  }

  /** The `updateTo` record built for every upsert: it names the version it
      belongs to, derives its notes from that version, and carries the date
      and URL of this publish. */
  function FreshUpdateTo(version: string, pubDate: string, url: string): (u: UpdateTo)
    ensures u.version == version && u.name == version
    ensures |u.notes| == |NotesPrefix| + |version|
    ensures u.notes[..|NotesPrefix|] == NotesPrefix && u.notes[|NotesPrefix|..] == version
    ensures u.pubDate == pubDate && u.url == url
  {
    UpdateTo(version, pubDate, NotesPrefix + version, version, url)
  }

  /** Marks `version` as current, then replaces the `updateTo` of the first
      entry with that version, or appends a new entry when there is none. */
  function Upsert(m: Manifest, version: string, pubDate: string, url: string): (r: Manifest)
    ensures r.currentRelease == version
    ensures (exists k :: 0 <= k < |m.releases| && m.releases[k].version == version) ==>
              && |r.releases| == |m.releases|
              && exists j :: 0 <= j < |m.releases| && m.releases[j].version == version
                  && (forall k :: 0 <= k < j ==> m.releases[k].version != version)
                  && r.releases[j] == Release(version, FreshUpdateTo(version, pubDate, url))
                  && (forall k :: 0 <= k < |m.releases| && k != j ==> r.releases[k] == m.releases[k])
    ensures (forall k :: 0 <= k < |m.releases| ==> m.releases[k].version != version) ==>
              (r.releases == m.releases + [Release(version, FreshUpdateTo(version, pubDate, url))])
  {
    var update := FreshUpdateTo(version, pubDate, url);
    match FirstWithVersion(m.releases, version)
    case Some(j) =>
      Manifest(version, m.releases[j := m.releases[j].(updateTo := update)])
    case None =>
      Manifest(version, m.releases + [Release(version, update)])
  }

  /** No two entries share a version. */
  predicate DistinctVersions(releases: seq<Release>) {
    forall a, b :: 0 <= a < b < |releases| ==> releases[a].version != releases[b].version
  }

  /** Every entry's `updateTo` names the entry's own version. */
  predicate EntriesConsistent(releases: seq<Release>) {
    forall k :: 0 <= k < |releases| ==>
      releases[k].updateTo.version == releases[k].version && releases[k].updateTo.name == releases[k].version
  }

  /** The versions listed, in order, are the same before and after an update,
      plus the new version at the end when it was not listed. */
  lemma UpsertKeepsVersions(m: Manifest, version: string, pubDate: string, url: string)
    ensures var r := Upsert(m, version, pubDate, url);
      forall k :: 0 <= k < |m.releases| ==> k < |r.releases| && r.releases[k].version == m.releases[k].version
    ensures var r := Upsert(m, version, pubDate, url);
      exists k :: 0 <= k < |r.releases| && r.releases[k].version == version
  {
    var r := Upsert(m, version, pubDate, url);
    match FirstWithVersion(m.releases, version)
    case Some(j) =>
      assert r.releases[j].version == version;
    case None =>
      assert r.releases[|m.releases|].version == version;
  }

  /** Upserting keeps the versions pairwise distinct. */
  lemma UpsertKeepsVersionsDistinct(m: Manifest, version: string, pubDate: string, url: string)
    requires DistinctVersions(m.releases)
    ensures DistinctVersions(Upsert(m, version, pubDate, url).releases)
  {
    var r := Upsert(m, version, pubDate, url);
    UpsertKeepsVersions(m, version, pubDate, url);
    if FirstWithVersion(m.releases, version).None? {
      forall a, b | 0 <= a < b < |r.releases|
        ensures r.releases[a].version != r.releases[b].version
      {
        if b == |m.releases| {
          assert r.releases[b].version == version;
        }
      }
    }
  }

  /** Upserting keeps every entry's `updateTo` in agreement with its version. */
  lemma UpsertKeepsEntriesConsistent(m: Manifest, version: string, pubDate: string, url: string)
    requires EntriesConsistent(m.releases)
    ensures EntriesConsistent(Upsert(m, version, pubDate, url).releases)
  {
  }

  /** With distinct versions, the upserted version is listed exactly once,
      with the freshly built `updateTo`. */
  lemma UpsertListsVersionOnce(m: Manifest, version: string, pubDate: string, url: string)
    requires DistinctVersions(m.releases)
    ensures var r := Upsert(m, version, pubDate, url);
      exists j :: 0 <= j < |r.releases|
        && r.releases[j] == Release(version, FreshUpdateTo(version, pubDate, url))
        && forall k :: 0 <= k < |r.releases| && k != j ==> r.releases[k].version != version
  {
    UpsertKeepsVersionsDistinct(m, version, pubDate, url);
    var r := Upsert(m, version, pubDate, url);
    var j :| 0 <= j < |r.releases| && r.releases[j] == Release(version, FreshUpdateTo(version, pubDate, url)) by {
      match FirstWithVersion(m.releases, version)
      case Some(i) =>
        assert r.releases[i] == Release(version, FreshUpdateTo(version, pubDate, url));
      case None =>
        assert r.releases[|m.releases|] == Release(version, FreshUpdateTo(version, pubDate, url));
    }
    forall k | 0 <= k < |r.releases| && k != j
      ensures r.releases[k].version != version
    {
      if k < j {
        assert r.releases[k].version != r.releases[j].version;
      } else {
        assert r.releases[j].version != r.releases[k].version;
      }
    }
  }

  /** Whatever the stored manifest, the upserted one lists the version with
      the `updateTo` of this publish, so its date and URL replace stale ones. */
  lemma UpsertListsFresh(m: Manifest, version: string, pubDate: string, url: string)
    ensures var r := Upsert(m, version, pubDate, url);
      exists j :: 0 <= j < |r.releases| && r.releases[j] == Release(version, FreshUpdateTo(version, pubDate, url))
  {
    var r := Upsert(m, version, pubDate, url);
    match FirstWithVersion(m.releases, version)
    case Some(i) =>
      assert r.releases[i] == Release(version, FreshUpdateTo(version, pubDate, url));
    case None =>
      assert r.releases[|m.releases|] == Release(version, FreshUpdateTo(version, pubDate, url));
  }

  /** Publishing the same version again leaves the same document as
      publishing it once with the later date and URL: the entry count does
      not grow and nothing of the first upsert survives. */
  lemma {:induction false} UpsertTwiceIsLastUpsert(m: Manifest, version: string, pubDate1: string, url1: string, pubDate2: string, url2: string)
    ensures Upsert(Upsert(m, version, pubDate1, url1), version, pubDate2, url2) == Upsert(m, version, pubDate2, url2)
  {
    var once := Upsert(m, version, pubDate1, url1);
    match FirstWithVersion(m.releases, version)
    case Some(j) =>
      assert FirstWithVersion(once.releases, version) == Some(j) by {
        FirstWithVersionAgrees(m.releases, once.releases, version);
      }
    case None =>
      assert FirstWithVersion(once.releases, version) == Some(|m.releases|) by {
        FirstWithVersionAgrees(m.releases, once.releases[..|m.releases|], version);
        FirstWithVersionPastPrefix(once.releases, |m.releases|, version);
      }
  }

  /** `find` looks only at versions. */
  lemma {:induction false} FirstWithVersionAgrees(a: seq<Release>, b: seq<Release>, version: string)
    requires |a| == |b|
    requires forall k :: 0 <= k < |a| ==> a[k].version == b[k].version
    ensures FirstWithVersion(a, version) == FirstWithVersion(b, version)
  {
    if |a| > 0 && a[0].version != version {
      FirstWithVersionAgrees(a[1..], b[1..], version);
    }
  }

  /** When no entry before `n` matches and entry `n` does, `find` returns `n`. */
  lemma {:induction false} FirstWithVersionPastPrefix(releases: seq<Release>, n: nat, version: string)
    requires n < |releases| && releases[n].version == version
    requires FirstWithVersion(releases[..n], version).None?
    ensures FirstWithVersion(releases, version) == Some(n)
  {
    if n > 0 {
      assert releases[..n][0] == releases[0];
      assert releases[..n][1..] == releases[1..][..n - 1];
      FirstWithVersionPastPrefix(releases[1..], n - 1, version);
    }
  }
}

=== FILE: publisher.dfy ===
/** `publish` and `setRelease` put together: flatten the build results,
    replay the upload events, and, when the uploads all succeeded and one of
    them was an installer, compute the manifest that is written back. The
    storage client enters only as parameters: `fetch` is `get` followed by
    `JSON.parse` at a path (`None` when either throws), `objectUrl` is
    `generateObjectUrl(keyForArtifact(artifact))`. */
module Publisher {
  import opened Wrappers
  import opened Collector
  import opened Uploads
  import opened Manifests

  /** The `put` that ends `setRelease`: the document and where it goes. */
  datatype ManifestWrite = ManifestWrite(path: string, manifest: Manifest)

  datatype PublishOutcome =
    | UploadFailed(error: string)
    | PublishedWithoutRelease
    | PublishedRelease(marker: Artifact, write: ManifestWrite)

  /** `setRelease` up to the final `put`. */
  function SetRelease(config: Config, artifact: Artifact, fetch: string -> Option<Manifest>,
                      url: string, pubDate: string): (w: ManifestWrite)
    ensures w.path == ManifestPath(config.basePath, artifact.platform, artifact.arch)
    ensures w.manifest.currentRelease == artifact.version
    ensures fetch(w.path).None? ==>
              w.manifest.releases == [Release(artifact.version, FreshUpdateTo(artifact.version, pubDate, url))]
    ensures exists j :: 0 <= j < |w.manifest.releases| &&
              w.manifest.releases[j] == Release(artifact.version, FreshUpdateTo(artifact.version, pubDate, url))
    ensures fetch(w.path).Some? ==>
              forall k :: 0 <= k < |fetch(w.path).value.releases| && fetch(w.path).value.releases[k].version != artifact.version ==>
                k < |w.manifest.releases| && w.manifest.releases[k] == fetch(w.path).value.releases[k]
  {
    var path := ManifestPath(config.basePath, artifact.platform, artifact.arch);
    var stored := fetch(path).GetOr(EmptyManifest);
    UpsertListsFresh(stored, artifact.version, pubDate, url);
    ManifestWrite(path, Upsert(stored, artifact.version, pubDate, url))
  }

  /** A stored manifest without duplicate versions is written back without
      duplicate versions, and never loses an entry. */
  lemma SetReleaseKeepsVersionsDistinct(config: Config, artifact: Artifact, fetch: string -> Option<Manifest>,
                                        url: string, pubDate: string)
    requires var path := ManifestPath(config.basePath, artifact.platform, artifact.arch);
      fetch(path).Some? ==> DistinctVersions(fetch(path).value.releases)
    ensures DistinctVersions(SetRelease(config, artifact, fetch, url, pubDate).manifest.releases)
    ensures var path := ManifestPath(config.basePath, artifact.platform, artifact.arch);
      var w := SetRelease(config, artifact, fetch, url, pubDate);
      fetch(path).Some? ==>
        forall k :: 0 <= k < |fetch(path).value.releases| ==>
          k < |w.manifest.releases| && w.manifest.releases[k].version == fetch(path).value.releases[k].version
  {
    var path := ManifestPath(config.basePath, artifact.platform, artifact.arch);
    var stored := fetch(path).GetOr(EmptyManifest);
    UpsertKeepsVersions(stored, artifact.version, pubDate, url);
    UpsertKeepsVersionsDistinct(stored, artifact.version, pubDate, url);
  }

  /** The error of the first upload to fail: the rejection `Promise.all`
      settles with. */
  function FirstFailure(events: seq<UploadEvent>): (r: Option<string>)
    ensures r.None? <==> forall k :: 0 <= k < |events| ==> !events[k].Failed?
    ensures r.Some? ==> exists k :: 0 <= k < |events| && events[k].Failed? && events[k].error == r.value
                                    && forall k' :: 0 <= k' < k ==> !events[k'].Failed?
  {
    if |events| == 0 then None
    else if events[0].Failed? then Some(events[0].error)
    else
      var rest := FirstFailure(events[1..]);
      if rest.Some? then
        assert exists k :: 0 <= k < |events[1..]| && events[1..][k].Failed? && events[1..][k].error == rest.value
                           && forall k' :: 0 <= k' < k ==> !events[1..][k'].Failed?;
        var k :| 0 <= k < |events[1..]| && events[1..][k].Failed? && events[1..][k].error == rest.value
                 && forall k' :: 0 <= k' < k ==> !events[1..][k'].Failed?;
        assert events[k + 1] == events[1..][k];
        assert forall k' :: 0 <= k' < k + 1 ==> !events[k'].Failed? by {
          forall k' | 0 <= k' < k + 1 ensures !events[k'].Failed? {
            if k' > 0 { assert events[k'] == events[1..][k' - 1]; }
          }
        }
        rest
      else
        assert forall k :: 0 <= k < |events| ==> !events[k].Failed? by {
          forall k | 0 <= k < |events| ensures !events[k].Failed? {
            if k > 0 { assert events[k] == events[1..][k - 1]; }
          }
        }
        rest
  }

  /** `publish` on the build results `makeResults`, with the upload callbacks
      arriving in the order of `events`. */
  function Publish(config: Config, makeResults: seq<MakeResult>, events: seq<UploadEvent>,
                   fetch: string -> Option<Manifest>, objectUrl: Artifact -> string,
                   pubDate: string): (r: PublishOutcome)
    requires IndicesInRange(|Flatten(config, makeResults)|, events)
    ensures r.UploadFailed? <==> FirstFailure(events).Some?
    ensures r.UploadFailed? ==> Some(r.error) == FirstFailure(events)
    ensures r.PublishedWithoutRelease? ==>
              IsLastInstaller(CompletedArtifacts(Flatten(config, makeResults), events), None)
    ensures r.PublishedRelease? ==>
              && IsLastInstaller(CompletedArtifacts(Flatten(config, makeResults), events), Some(r.marker))
              && r.write == SetRelease(config, r.marker, fetch, objectUrl(r.marker), pubDate)
    ensures r.PublishedRelease? ==>
              && IsInstaller(r.marker.path.extname)
              && r.write.path == ManifestPath(config.basePath, r.marker.platform, r.marker.arch)
              && r.write.manifest.currentRelease == r.marker.version
  {
    var artifacts := Flatten(config, makeResults);
    match FirstFailure(events)
    case Some(error) => UploadFailed(error)
    case None =>
      var uploads := Replay(artifacts, events);
      MarkerIsLastInstaller(artifacts, events);
      match uploads.marker
      case None => PublishedWithoutRelease
      case Some(marker) =>
        PublishedRelease(marker, SetRelease(config, marker, fetch, objectUrl(marker), pubDate))
  }

  /** After a run without failures, the manifest is updated exactly when at
      least one artifact has an installer extension. */
  lemma {:induction false} ManifestUpdatedIffInstallerPublished(config: Config, makeResults: seq<MakeResult>, events: seq<UploadEvent>,
                                             fetch: string -> Option<Manifest>, objectUrl: Artifact -> string,
                                             pubDate: string)
    requires ValidRun(|Flatten(config, makeResults)|, events)
    requires AllCompleted(|Flatten(config, makeResults)|, events)
    requires forall k :: 0 <= k < |events| ==> !events[k].Failed?
    ensures Publish(config, makeResults, events, fetch, objectUrl, pubDate).PublishedRelease?
            <==> exists a :: a in Flatten(config, makeResults) && IsInstaller(a.path.extname)
  {
    var artifacts := Flatten(config, makeResults);
    var done := CompletedArtifacts(artifacts, events);
    MarkerIsLastInstaller(artifacts, events);
    CompletedArtifactsAreFinished(artifacts, events);
    if a :| a in artifacts && IsInstaller(a.path.extname) {
      var i :| 0 <= i < |artifacts| && artifacts[i] == a;
      assert i in CompletedSet(events);
      assert a in done;
    }
  }

  /** The release marker is always one of the flattened artifacts. */
  lemma {:induction false} PublishedMarkerIsArtifact(config: Config, makeResults: seq<MakeResult>, events: seq<UploadEvent>,
                                  fetch: string -> Option<Manifest>, objectUrl: Artifact -> string,
                                  pubDate: string)
    requires IndicesInRange(|Flatten(config, makeResults)|, events)
    ensures var r := Publish(config, makeResults, events, fetch, objectUrl, pubDate);
      r.PublishedRelease? ==> r.marker in Flatten(config, makeResults)
  {
    var artifacts := Flatten(config, makeResults);
    MarkerIsLastInstaller(artifacts, events);
    CompletedArtifactsAreFinished(artifacts, events);
  }

  /** Running `setRelease` for the same artifact on the manifest it just
      wrote leaves the number of entries unchanged, and the result is what a
      single run with the later URL and date writes. */
  lemma RepublishKeepsEntryCount(config: Config, artifact: Artifact, stored: Manifest,
                                 url1: string, pubDate1: string, url2: string, pubDate2: string)
    ensures var path := ManifestPath(config.basePath, artifact.platform, artifact.arch);
      var first := SetRelease(config, artifact, _ => Some(stored), url1, pubDate1);
      var second := SetRelease(config, artifact, _ => Some(first.manifest), url2, pubDate2);
      && |second.manifest.releases| == |first.manifest.releases|
      && second == SetRelease(config, artifact, _ => Some(stored), url2, pubDate2)
  {
    UpsertTwiceIsLastUpsert(stored, artifact.version, pubDate1, url1, pubDate2, url2);
    var first := Upsert(stored, artifact.version, pubDate1, url1);
    UpsertKeepsVersions(first, artifact.version, pubDate2, url2);
    var j :| 0 <= j < |first.releases| && first.releases[j].version == artifact.version by {
      UpsertKeepsVersions(stored, artifact.version, pubDate1, url1);
    }
  }
}

=== FILE: text.dfy ===
/** String helpers the publisher relies on from JavaScript: the global
    single-character `replace`, decimal rendering of a counter inside a
    template literal, and `Array.prototype.join`. */
module Text {

  predicate IsDigit(c: char) {
    '0' <= c <= '9'
  }

  predicate AllDigits(s: string) {
    forall i :: 0 <= i < |s| ==> IsDigit(s[i])
  }

  function DigitChar(d: nat): (c: char)
    requires d < 10
    ensures IsDigit(c)
  {
    (48 + d) as char
  }

  function DigitValue(c: char): (d: nat)
    requires IsDigit(c)
    ensures d < 10
    ensures DigitChar(d) == c
  {
    c as int - 48
  }

  /** `s.replace(/x/g, y)` for a single character `x`: every occurrence of
      `from` becomes `to`, every other character stays where it was. */
  function ReplaceChar(s: string, from: char, to: char): (r: string)
    ensures |r| == |s|
    ensures forall i :: 0 <= i < |s| ==> r[i] == (if s[i] == from then to else s[i])
  {
    if |s| == 0 then []
    else [if s[0] == from then to else s[0]] + ReplaceChar(s[1..], from, to)
  }

  /** Decimal rendering of a natural number, as `${n}` produces it. */
  function NatToString(n: nat): (s: string)
    ensures |s| > 0
    ensures AllDigits(s)
  {
    if n < 10 then [DigitChar(n)]
    else NatToString(n / 10) + [DigitChar(n % 10)]
  }

  /** Reads a string of decimal digits back as a number. */
  function ParseNat(s: string): nat
    requires AllDigits(s)
  {
    if |s| == 0 then 0
    else 10 * ParseNat(s[..|s| - 1]) + DigitValue(s[|s| - 1])
  }

  /** Reading the rendering of `n` gives back `n`. */
  lemma {:induction false} ParseNatToString(n: nat)
    ensures ParseNat(NatToString(n)) == n
  {
    var s := NatToString(n);
    if n >= 10 {
      ParseNatToString(n / 10);
      assert s[..|s| - 1] == NatToString(n / 10);
    }
  }

  /** The longest prefix of `s` made only of digits. */
  function TakeDigits(s: string): (p: string)
    ensures |p| <= |s| && p == s[..|p|]
    ensures AllDigits(p)
    ensures |p| < |s| ==> !IsDigit(s[|p|])
  {
    if |s| == 0 || !IsDigit(s[0]) then []
    else [s[0]] + TakeDigits(s[1..])
  }

  /** A digit string followed by anything that does not start with a digit is
      split back off exactly. */
  lemma {:induction false} TakeDigitsOfNumeral(d: string, rest: string)
    requires AllDigits(d)
    requires |rest| == 0 || !IsDigit(rest[0])
    ensures TakeDigits(d + rest) == d
  {
    if |d| > 0 {
      assert (d + rest)[1..] == d[1..] + rest;
      TakeDigitsOfNumeral(d[1..], rest);
    }
  }

  /** `parts.join(sep)`. */
  function Join(parts: seq<string>, sep: string): string {
    if |parts| == 0 then ""
    else if |parts| == 1 then parts[0]
    else parts[0] + sep + Join(parts[1..], sep)
  }
}

=== FILE: uploads.dfy ===
/** The upload phase of `publish`. The concurrent transfers are seen as the
    sequence of callback events they deliver, applied one at a time in the
    order they happen: a progress tick, a finished upload or a failed one. */
module Uploads {
  import opened Wrappers
  import opened Text
  import opened Collector

  /** `percent` is the rendered `Math.round(p * 100)` of a progress tick, kept
      as text. */
  datatype UploadEvent =
    | Progress(index: nat, percent: string)
    | Completed(index: nat)
    | Failed(index: nat, error: string)
  {
    /** After this event the artifact's upload delivers nothing more. */
    predicate IsTerminal() {
      Completed? || Failed?
    }
  }

  /** The closure state of `publish`: the `uploaded` counter, the sparse
      `details` array (a hole is `None`), `releaseArtifact`, and every status
      line handed to `setStatusLine` so far. */
  datatype UploadState = UploadState(
    uploaded: nat,
    details: seq<Option<string>>,
    marker: Option<Artifact>,
    statusLines: seq<string>)

  const StatusHeader := "Uploading Artifacts "

  /** The extensions whose artifact becomes the release marker. */
  predicate IsInstaller(extname: string) {
    extname != "" && (extname == ".dmg" || extname == ".exe")
  }

  /** The detail text of one artifact, `<basename>: percent%`. */
  function DetailText(basename: string, percent: string): string {
    "<" + basename + ">: " + percent + "%"
  }

  /** `details[i] = text` on a JavaScript array: an index past the end grows
      the array, leaving holes in between. */
  function SetSlot(details: seq<Option<string>>, i: nat, text: string): (r: seq<Option<string>>)
    ensures |r| == if i < |details| then |details| else i + 1
    ensures r[i] == Some(text)
    ensures forall k :: 0 <= k < |details| && k != i ==> r[k] == details[k]
    ensures forall k :: |details| <= k < |r| && k != i ==> r[k] == None
  {
    if i < |details| then details[i := Some(text)]
    else details + seq(i - |details|, _ => None) + [Some(text)] 
  }

  /** A hole renders as the empty string in `join`. */
  function Rendered(details: seq<Option<string>>): (r: seq<string>)
    ensures |r| == |details|
  {
    seq(|details|, k requires 0 <= k < |details| => details[k].GetOr(""))
  }

  /** The status line `Uploading Artifacts done/total` followed by the
      tab-joined details. */
  function StatusLine(uploaded: nat, total: nat, details: seq<Option<string>>): (line: string)
    ensures StatusHeader <= line
    ensures |line| > |StatusHeader| + 2
  {
    StatusHeader + (NatToString(uploaded) + ("/" + (NatToString(total) + ("\n  " + Join(Rendered(details), "\t")))))
  }

  /** Reads the counter back off a status line. */
  function ReadCounter(line: string): Option<(nat, nat)> {
    if !(|StatusHeader| <= |line| && line[..|StatusHeader|] == StatusHeader) then None
    else
      var rest := line[|StatusHeader|..];
      var done := TakeDigits(rest);
      var afterDone := rest[|done|..];
      if |done| == 0 || |afterDone| == 0 || afterDone[0] != '/' then None
      else
        var total := TakeDigits(afterDone[1..]);
        if |total| == 0 then None
        else Some((ParseNat(done), ParseNat(total)))
  }

  /** A rendered counter `done/total` after the header, followed by text that
      does not start with a digit, reads back as the pair it was rendered
      from. */
  lemma CounterReadsBack(uploaded: nat, total: nat, tail: string)
    requires |tail| == 0 || !IsDigit(tail[0])
    ensures ReadCounter(StatusHeader + (NatToString(uploaded) + ("/" + (NatToString(total) + tail))))
            == Some((uploaded, total))
  {
    var d := NatToString(uploaded);
    var t := NatToString(total);
    var after := "/" + (t + tail);
    var rest := d + after;
    var line := StatusHeader + rest;
    assert line[..|StatusHeader|] == StatusHeader;
    assert line[|StatusHeader|..] == rest;
    TakeDigitsOfNumeral(d, after);
    assert rest[|d|..] == after;
    assert after[1..] == t + tail;
    TakeDigitsOfNumeral(t, tail);
    ParseNatToString(uploaded);
    ParseNatToString(total);
  }

  /** Every status line shows the counter it was rendered from, whatever the
      details hold. */
  lemma StatusLineShowsCounter(uploaded: nat, total: nat, details: seq<Option<string>>)
    ensures ReadCounter(StatusLine(uploaded, total, details)) == Some((uploaded, total))
  {
    var tail := "\n  " + Join(Rendered(details), "\t");
    CounterReadsBack(uploaded, total, tail);
  }

  /** State before any event: nothing uploaded, no details, no marker, and
      `updateStatusLine()` has run once. */
  function Initial(total: nat): (s: UploadState)
    ensures s.uploaded == 0 && s.details == [] && s.marker == None
    ensures |s.statusLines| == 1
  {
    UploadState(0, [], None, [StatusLine(0, total, [])])
  }

  /** One callback. A progress tick rewrites the artifact's detail slot; a
      finished upload counts it, marks it 100%, and makes it the release marker
      when its extension is an installer's; each of these re-emits the status
      line. A failed upload runs none of the code after the `await`. */
  function Step(artifacts: seq<Artifact>, s: UploadState, e: UploadEvent): (r: UploadState)
    requires e.index < |artifacts|
    ensures e.Completed? ==> r.uploaded == s.uploaded + 1
    ensures !e.Completed? ==> r.uploaded == s.uploaded && r.marker == s.marker
    ensures e.Completed? && !IsInstaller(artifacts[e.index].path.extname) ==> r.marker == s.marker
    ensures e.Completed? && IsInstaller(artifacts[e.index].path.extname) ==> r.marker == Some(artifacts[e.index])
    ensures !e.Failed? ==> e.index < |r.details|
    ensures e.Progress? ==> r.details[e.index] == Some(DetailText(artifacts[e.index].path.basename, e.percent))
    ensures e.Completed? ==> r.details[e.index] == Some(DetailText(artifacts[e.index].path.basename, "100"))
    ensures |r.details| >= |s.details|
    ensures forall k :: 0 <= k < |s.details| && k != e.index ==> r.details[k] == s.details[k]
    ensures |r.statusLines| == |s.statusLines| + (if e.Failed? then 0 else 1)
    ensures r.statusLines[..|s.statusLines|] == s.statusLines
    ensures !e.Failed? ==> r.statusLines[|s.statusLines|] == StatusLine(r.uploaded, |artifacts|, r.details)
    ensures e.Failed? ==> r == s
  {
    match e
    case Progress(i, percent) =>
      var details := SetSlot(s.details, i, DetailText(artifacts[i].path.basename, percent));
      s.(details := details,
         statusLines := s.statusLines + [StatusLine(s.uploaded, |artifacts|, details)])
    case Completed(i) =>
      var uploaded := s.uploaded + 1;
      var details := SetSlot(s.details, i, DetailText(artifacts[i].path.basename, "100"));
      var marker := if IsInstaller(artifacts[i].path.extname) then Some(artifacts[i]) else s.marker;
      UploadState(uploaded, details, marker,
                  s.statusLines + [StatusLine(uploaded, |artifacts|, details)])
    case Failed(_, _) =>
      s
  }

  predicate IndicesInRange(total: nat, events: seq<UploadEvent>) {
    forall k :: 0 <= k < |events| ==> events[k].index < total
  }

  /** The artifacts whose upload finished, in completion order. */
  function CompletedArtifacts(artifacts: seq<Artifact>, events: seq<UploadEvent>): (r: seq<Artifact>)
    requires IndicesInRange(|artifacts|, events)
    ensures |r| <= |events|
  {
    if |events| == 0 then []
    else
      var e := events[|events| - 1];
      CompletedArtifacts(artifacts, events[..|events| - 1])
        + (if e.Completed? then [artifacts[e.index]] else [])
  }

  /** The indices whose upload finished. */
  function CompletedSet(events: seq<UploadEvent>): set<nat> {
    if |events| == 0 then {}
    else
      var e := events[|events| - 1];
      CompletedSet(events[..|events| - 1]) + (if e.Completed? then {e.index} else {})
  }

  /** Before any upload reports, the one status line shows `0/total`. */
  lemma InitialLineShowsZero(total: nat)
    ensures ReadCounter(Initial(total).statusLines[0]) == Some((0, total))
  {
    StatusLineShowsCounter(0, total, []);
  }

  /** The state after applying `events` in order. */
  function Replay(artifacts: seq<Artifact>, events: seq<UploadEvent>): (r: UploadState)
    requires IndicesInRange(|artifacts|, events)
    ensures r.uploaded == |CompletedArtifacts(artifacts, events)|
    ensures |r.statusLines| > 0
    ensures |r.details| <= |artifacts|
  {
    if |events| == 0 then Initial(|artifacts|)
    else Step(artifacts, Replay(artifacts, events[..|events| - 1]), events[|events| - 1])
  }

  /** `updateStatusLine()` runs after every change: the last line emitted
      always renders the current counter and details. */
  lemma {:induction false} LastStatusLineIsCurrent(artifacts: seq<Artifact>, events: seq<UploadEvent>)
    requires IndicesInRange(|artifacts|, events)
    ensures var r := Replay(artifacts, events);
      r.statusLines[|r.statusLines| - 1] == StatusLine(r.uploaded, |artifacts|, r.details)
    decreases |events|
  {
    if |events| > 0 {
      var prefix := events[..|events| - 1];
      LastStatusLineIsCurrent(artifacts, prefix);
    }
  }

  /** What the transfers can deliver: indices of real artifacts, and nothing
      more for an artifact once its upload has finished or failed. */
  predicate ValidRun(total: nat, events: seq<UploadEvent>) {
    && IndicesInRange(total, events)
    && forall a, b :: 0 <= a < b < |events| && events[a].IsTerminal() ==> events[b].index != events[a].index
  }

  /** Every artifact's upload has finished. */
  predicate AllCompleted(total: nat, events: seq<UploadEvent>) {
    forall i: nat :: i < total ==> i in CompletedSet(events)
  }

  /** The release marker of a completion order: the last artifact with an
      installer extension, or none when there is no such artifact. */
  ghost predicate IsLastInstaller(done: seq<Artifact>, marker: Option<Artifact>) {
    match marker
    case None =>
      forall k :: 0 <= k < |done| ==> !IsInstaller(done[k].path.extname)
    case Some(a) =>
      exists j :: 0 <= j < |done| && done[j] == a && IsInstaller(a.path.extname)
                  && forall k :: j < k < |done| ==> !IsInstaller(done[k].path.extname)
  }

  lemma ValidRunPrefix(total: nat, events: seq<UploadEvent>, m: nat)
    requires ValidRun(total, events) && m <= |events|
    ensures ValidRun(total, events[..m])
  {
    var p := events[..m];
    forall a, b | 0 <= a < b < |p| && p[a].IsTerminal()
      ensures p[b].index != p[a].index
    {
      assert p[a] == events[a] && p[b] == events[b];
    }
  }

  lemma {:induction false} CompletedSetWitness(events: seq<UploadEvent>, x: nat)
    requires x in CompletedSet(events)
    ensures exists k :: 0 <= k < |events| && events[k] == Completed(x)
    decreases |events|
  {
    var last := |events| - 1;
    var e := events[last];
    if !(e.Completed? && e.index == x) {
      CompletedSetWitness(events[..last], x);
      var k :| 0 <= k < last && events[..last][k] == Completed(x);
      assert events[k] == Completed(x);
    }
  }

  /** In a valid run an event never concerns an artifact that already
      finished. */
  lemma LastEventNotFinishedBefore(total: nat, events: seq<UploadEvent>)
    requires ValidRun(total, events) && |events| > 0
    ensures events[|events| - 1].index !in CompletedSet(events[..|events| - 1])
  {
    var last := |events| - 1;
    var x := events[last].index;
    if x in CompletedSet(events[..last]) {
      CompletedSetWitness(events[..last], x);
      assert false;
    }
  }

  lemma {:induction false} CompletedSetBounded(total: nat, events: seq<UploadEvent>)
    requires IndicesInRange(total, events)
    ensures forall x :: x in CompletedSet(events) ==> x < total
  {
    forall x | x in CompletedSet(events)
      ensures x < total
    {
      CompletedSetWitness(events, x);
    }
  }

  /** In a valid run no artifact finishes twice, so the finished list is as
      long as the set of finished indices. */
  lemma {:induction false} CompletedArtifactsAreDistinct(artifacts: seq<Artifact>, events: seq<UploadEvent>)
    requires ValidRun(|artifacts|, events)
    ensures |CompletedArtifacts(artifacts, events)| == |CompletedSet(events)|
    decreases |events|
  {
    if |events| > 0 {
      var last := |events| - 1;
      var e := events[last];
      var prefix := events[..last];
      ValidRunPrefix(|artifacts|, events, last);
      CompletedArtifactsAreDistinct(artifacts, prefix);
      if e.Completed? {
        LastEventNotFinishedBefore(|artifacts|, events);
        assert CompletedSet(events) == CompletedSet(prefix) + {e.index};
      } else {
        assert CompletedSet(events) == CompletedSet(prefix);
      }
    }
  }

  /** In a valid run no artifact finishes twice, so the counter equals the
      number of distinct artifacts that finished. */
  lemma {:induction false} CounterCountsDistinctArtifacts(artifacts: seq<Artifact>, events: seq<UploadEvent>)
    requires ValidRun(|artifacts|, events)
    ensures Replay(artifacts, events).uploaded == |CompletedSet(events)|
  {
    CompletedArtifactsAreDistinct(artifacts, events);
  }

  /** The indices of an array of length `n`. */
  function IndexSet(n: nat): (r: set<nat>)
    ensures |r| == n
    ensures forall x :: x in r <==> 0 <= x < n
  {
    if n == 0 then {} else IndexSet(n - 1) + {n - 1}
  }

  /** The counter never exceeds the number of artifacts. */
  lemma {:induction false} UploadedNeverExceedsTotal(artifacts: seq<Artifact>, events: seq<UploadEvent>)
    requires ValidRun(|artifacts|, events)
    ensures Replay(artifacts, events).uploaded <= |artifacts|
  {
    CounterCountsDistinctArtifacts(artifacts, events);
    CompletedSetBounded(|artifacts|, events);
    var range := IndexSet(|artifacts|);
    assert CompletedSet(events) <= range;
    assert |range| == |CompletedSet(events)| + |range - CompletedSet(events)|;
  }

  /** Once every upload has finished the counter reads `artifacts.length`. */
  lemma {:induction false} UploadedReachesTotal(artifacts: seq<Artifact>, events: seq<UploadEvent>)
    requires ValidRun(|artifacts|, events)
    requires AllCompleted(|artifacts|, events)
    ensures Replay(artifacts, events).uploaded == |artifacts|
  {
    CounterCountsDistinctArtifacts(artifacts, events);
    CompletedSetBounded(|artifacts|, events);
    assert CompletedSet(events) == IndexSet(|artifacts|);
  }

  /** Overwriting the marker with a new installer, or keeping it otherwise,
      keeps it the last installer of the longer completion order. */
  lemma LastInstallerExtends(before: seq<Artifact>, marker: Option<Artifact>, a: Artifact)
    requires IsLastInstaller(before, marker)
    ensures IsLastInstaller(before + [a], if IsInstaller(a.path.extname) then Some(a) else marker)
  {
    var done := before + [a];
    if IsInstaller(a.path.extname) {
      assert done[|before|] == a;
    } else if marker.Some? {
      var j :| 0 <= j < |before| && before[j] == marker.value && IsInstaller(marker.value.path.extname)
               && forall k :: j < k < |before| ==> !IsInstaller(before[k].path.extname);
      assert done[j] == marker.value;
    }
  }

  /** The marker is the last installer artifact in completion order. */
  lemma {:induction false} MarkerIsLastInstaller(artifacts: seq<Artifact>, events: seq<UploadEvent>)
    requires IndicesInRange(|artifacts|, events)
    ensures IsLastInstaller(CompletedArtifacts(artifacts, events), Replay(artifacts, events).marker)
    decreases |events|
  {
    if |events| > 0 {
      var last := |events| - 1;
      var e := events[last];
      var prefix := events[..last];
      MarkerIsLastInstaller(artifacts, prefix);
      var before := CompletedArtifacts(artifacts, prefix);
      var m := Replay(artifacts, prefix).marker;
      assert Replay(artifacts, events).marker == Step(artifacts, Replay(artifacts, prefix), e).marker;
      if e.Completed? {
        assert CompletedArtifacts(artifacts, events) == before + [artifacts[e.index]];
        LastInstallerExtends(before, m, artifacts[e.index]);
      } else {
        assert CompletedArtifacts(artifacts, events) == before;
      }
    }
  }

  /** The detail slot of every finished artifact reads 100% and nothing later
      overwrites it. */
  lemma {:induction false} FinishedSlotsRead100(artifacts: seq<Artifact>, events: seq<UploadEvent>)
    requires ValidRun(|artifacts|, events)
    ensures forall i :: i in CompletedSet(events) ==>
              i < |Replay(artifacts, events).details|
              && Replay(artifacts, events).details[i] == Some(DetailText(artifacts[i].path.basename, "100"))
    decreases |events|
  {
    if |events| > 0 {
      var last := |events| - 1;
      var e := events[last];
      var prefix := events[..last];
      ValidRunPrefix(|artifacts|, events, last);
      FinishedSlotsRead100(artifacts, prefix);
      LastEventNotFinishedBefore(|artifacts|, events);
      var s := Replay(artifacts, prefix);
      var r := Replay(artifacts, events);
      assert r == Step(artifacts, s, e);
      forall i | i in CompletedSet(events)
        ensures i < |r.details| && r.details[i] == Some(DetailText(artifacts[i].path.basename, "100"))
      {
        if !(e.Completed? && i == e.index) {
          assert i in CompletedSet(prefix);
          assert i != e.index;
        }
      }
    }
  }

  /** When all uploads have finished, the details array holds exactly one
      `<basename>: 100%` entry per artifact, in artifact order. */
  lemma {:induction false} AllSlotsRead100(artifacts: seq<Artifact>, events: seq<UploadEvent>)
    requires ValidRun(|artifacts|, events)
    requires AllCompleted(|artifacts|, events)
    ensures |Replay(artifacts, events).details| == |artifacts|
    ensures forall i :: 0 <= i < |artifacts| ==>
              Replay(artifacts, events).details[i] == Some(DetailText(artifacts[i].path.basename, "100"))
  {
    FinishedSlotsRead100(artifacts, events);
    if |artifacts| > 0 {
      assert (|artifacts| - 1) as nat in CompletedSet(events);
    }
  }

  /** The completion list holds exactly the artifacts whose upload
      finished. */
  lemma {:induction false} CompletedArtifactsAreFinished(artifacts: seq<Artifact>, events: seq<UploadEvent>)
    requires IndicesInRange(|artifacts|, events)
    ensures forall i :: i in CompletedSet(events) ==> i < |artifacts|
    ensures forall i :: i in CompletedSet(events) ==> artifacts[i] in CompletedArtifacts(artifacts, events)
    ensures forall a :: a in CompletedArtifacts(artifacts, events) ==> a in artifacts
    decreases |events|
  {
    if |events| > 0 {
      var last := |events| - 1;
      var prefix := events[..last];
      assert IndicesInRange(|artifacts|, prefix) by {
        forall k | 0 <= k < |prefix| ensures prefix[k].index < |artifacts| {
          assert prefix[k] == events[k];
        }
      }
      CompletedArtifactsAreFinished(artifacts, prefix);
      CompletedSetBounded(|artifacts|, events);
    }
  }

  /** After a run in which every upload finished, the last status line
      reports all artifacts uploaded. */
  lemma {:induction false} FinishedRunReportsAll(artifacts: seq<Artifact>, events: seq<UploadEvent>)
    requires ValidRun(|artifacts|, events)
    requires AllCompleted(|artifacts|, events)
    ensures var lines := Replay(artifacts, events).statusLines;
      ReadCounter(lines[|lines| - 1]) == Some((|artifacts|, |artifacts|))
  {
    var r := Replay(artifacts, events);
    UploadedReachesTotal(artifacts, events);
    LastStatusLineIsCurrent(artifacts, events);
    StatusLineShowsCounter(r.uploaded, |artifacts|, r.details);
  }

  /** The example of a `.zip`, `.dmg`, `.exe`, `.zip` completion order: the
      `.exe` artifact is the marker. */
  lemma ExeAfterDmgWins(zip1: Artifact, dmg: Artifact, exe: Artifact, zip2: Artifact)
    requires zip1.path.extname == ".zip" && zip2.path.extname == ".zip"
    requires dmg.path.extname == ".dmg" && exe.path.extname == ".exe"
    ensures Replay([zip1, dmg, exe, zip2], [Completed(0), Completed(1), Completed(2), Completed(3)]).marker == Some(exe)
  {
    var arts := [zip1, dmg, exe, zip2];
    var evs := [Completed(0), Completed(1), Completed(2), Completed(3)];
    assert evs[..3] == [Completed(0), Completed(1), Completed(2)];
    assert evs[..3][..2] == [Completed(0), Completed(1)];
    assert evs[..3][..2][..1] == [Completed(0)];
    assert evs[..3][..2][..1][..0] == [];
  }
}

=== FILE: wrappers.dfy ===
/** The optional value used wherever the publisher works with something that
    may be absent: an unset `basePath`, a manifest that could not be fetched,
    a release marker that no upload produced. */
module Wrappers {

  datatype Option<+T> = None | Some(value: T) {

    /** The wrapped value, or `default` when there is none. */
    function GetOr(default: T): T {
      match this
      case Some(v) => v
      case None => default
    }
  }
}
